=== FILE: README.md ===
# Music discovery front end and request shaping, in Dafny

This project models the small transition systems behind a music-discovery web application:

- the floating player (`MusicPlayer.jsx`). Its state is two view flags (`expanded`, `fullscreen`), the `song` prop, and the identity of the last song its song-change effect recorded;
- the search box (`Hero.jsx`). Its state is the text, the suggestion list and the focus flag, and it emits suggestion requests and `onSearch` calls;
- the recommendation container (`Home.jsx`). Its state is the matched song, the recommendations, the `loading` flag and the current song;
- the results section (`RecommendationSection.jsx`). This covers the duration label, the loading/empty/results choice, and what a click selects;
- the Flask back end (`app.py`). This covers the YouTube lookup, the `/recommend` guard and augmentation loop, and the `/search` wrapping.

Every component is an immutable record with pure transition functions. Asynchronous replies are events that may arrive in any order.

Files, one module each:

- `wrappers.dfy`: `Option`.
- `decimal.dfy`: decimal numerals and their reading.
- `jstext.dfy`: ECMAScript `trim`.
- `songs.dfy`: the song record.
- `player.dfy`, `searchbox.dfy`, `home.dfy`, `resultsview.dfy`, `backend.dfy`: the five components above.
- `app.dfy`: the wiring in `Home.jsx`. A search starts a request, a click in the results selects a song, and the current song is the player's `song` prop.

Modelling choices:

- A click on an element that is not rendered reaches no handler, so it changes nothing. This is why `fullscreen ⇒ expanded` holds in every reachable player state: the fullscreen button only exists inside the expanded panel.
- The player's song-change effect (dependency `[song]`) is modelled as running on every push of the prop. This is equivalent to the source: in a reachable state, re-running it with the unchanged song is a no-op (`Player.SameSongNoChange`).
- The identity key is `track_id` when it is truthy, otherwise `title + "-" + artist`. It is modelled as written, and two different songs can share a key (`Player.KeyCollision`).
- A failed suggestion request leaves the suggestions unchanged (`Hero.jsx:28-30`). The list keeps whatever the last successful reply put there.
- The close button clears both view flags (`MusicPlayer.jsx:126-129`). With the song still set, this shows the mini tile (`MusicPlayer.jsx:36`), not a hidden player.
- While the player is fullscreen, its overlay covers the whole viewport above the results section (`MusicPlayer.jsx:215-222`, `Home.jsx:59`). A click aimed at a result therefore only leaves fullscreen.
- Unseen collaborators are function parameters with no interpretation: `recommend`, `search_songs`, and the YouTube Data API (HTTP call plus `response.json()`). The API key from the environment is an `Option<string>` parameter.

## Model

| member | source | states |
|---|---|---|
| Player.IdentityKey | frontend/src/components/MusicPlayer.jsx:13 | The key is the track id when it is truthy, otherwise `title + "-" + artist`. Partners: EmptyTrackIdFallsBack, KeyIgnoresVideoId, KeyCollision. |
| Player.ReceiveSong | frontend/src/components/MusicPlayer.jsx:11-28 | An absent song clears both flags and the recorded id. A present song with a new identity gives expanded, not fullscreen, and records the new id whatever the prior view. The same identity changes only the prop. |
| Player.Click | frontend/src/components/MusicPlayer.jsx:36-220 | A control that is not rendered does nothing. The mini tile sets expanded and keeps fullscreen. The fullscreen button flips only fullscreen, and the overlay clears only fullscreen. Close clears both flags. No click touches the song or the recorded id. |
| Player.StepPreservesInv | frontend/src/components/MusicPlayer.jsx:6-28 | Every event preserves three facts: fullscreen implies expanded, there is no open panel without a song, and the recorded id is the current song's key. |
| Player.RunPreservesInv | frontend/src/components/MusicPlayer.jsx:6-28 | The invariant survives any sequence of song pushes and clicks. |
| Player.Reachable | frontend/src/components/MusicPlayer.jsx:6-8 | Every state reachable from the initial (false, false, null) satisfies the invariant, so fullscreen implies expanded. |
| Player.ViewMatchesRender | frontend/src/components/MusicPlayer.jsx:30-223 | In a reachable state, exactly one of Hidden/Mini/Expanded/Fullscreen holds. Each matches one rendered layer: nothing, the mini tile, the panel alone, or the panel with the overlay. |
| Player.HiddenIffLastSongAbsent | frontend/src/components/MusicPlayer.jsx:22-30 | After any event sequence the player is Hidden iff the most recent song pushed was absent. |
| Player.SameIdentityIdempotent | frontend/src/components/MusicPlayer.jsx:16 | Pushing two songs with the same identity key in a row expands once. The second push changes only the prop. |
| Player.SameSongNoChange | frontend/src/components/MusicPlayer.jsx:11-28 | Re-running the effect with the unchanged song leaves a reachable state untouched. |
| Player.NewIdentityExpands | frontend/src/components/MusicPlayer.jsx:16-21 | A song whose key differs from the recorded one always lands in Expanded, including from Fullscreen. |
| Player.RepushAfterClearExpands | frontend/src/components/MusicPlayer.jsx:22-27 | Clearing the song hides the player. Pushing the previous song again auto-expands again. |
| Player.CloseThenReopen | frontend/src/components/MusicPlayer.jsx:126-129 | Close leads to the mini tile, not Hidden. The mini tile then re-expands. |
| Player.FullscreenRoundTrip | frontend/src/components/MusicPlayer.jsx:116-220 | From Expanded, the fullscreen button enters Fullscreen. Pressing it again, or clicking the overlay, restores the exact prior state. |
| Player.NewTrackWhileFullscreen | frontend/src/components/MusicPlayer.jsx:16-21 | Track "A", then fullscreen, then track "B" ends in Expanded, not Fullscreen. |
| Player.KeyIgnoresVideoId | frontend/src/components/MusicPlayer.jsx:13 | The key never depends on the video id. With a truthy track id it does not depend on the title or artist either. |
| Player.EmptyTrackIdFallsBack | frontend/src/components/MusicPlayer.jsx:13 | An empty track id is falsy, so the key falls back to `title-artist`. |
| Player.KeyCollision | frontend/src/components/MusicPlayer.jsx:13-16 | ("a-b","c") and ("a","b-c") are different songs with the same key. After close, pushing the second song leaves the player on the mini tile. |
| SearchBox.Change | frontend/src/components/Hero.jsx:11-37 | A keystroke sets the text to exactly the value. Under two characters it empties the suggestions and issues no request. Otherwise it keeps the list and requests with the raw value. |
| SearchBox.Receive | frontend/src/components/Hero.jsx:26-30 | A reply sets the list to its `suggestions` field, or to empty when the field is absent. A failure leaves the box unchanged. Text and focus are never touched. |
| SearchBox.Select | frontend/src/components/Hero.jsx:39-44 | Selecting an item makes it the text, empties the list, unfocuses, and searches exactly that item. Partners: PickSearchesOnce, SearchClosesDropdown. |
| SearchBox.SearchClick | frontend/src/components/Hero.jsx:46-52 | Blank-after-trim text changes nothing and searches nothing. Otherwise suggestions are cleared, focus is dropped, and the untrimmed text is searched. |
| SearchBox.KeyPress | frontend/src/components/Hero.jsx:54-58 | Any key other than Enter changes nothing and searches nothing. |
| SearchBox.MouseDown | frontend/src/components/Hero.jsx:61-66 | A press outside the search area drops focus only. A press inside changes nothing. |
| SearchBox.DropdownVisible | frontend/src/components/Hero.jsx:192 | The dropdown needs suggestions. With suggestions it shows when focused or when there is text, and with neither focus nor text it is hidden. Partners: ClickOutsideKeepsDropdownWithText, ShortInputClosesDropdown, FocusShowsSuggestions. |
| SearchBox.SearchIffNotBlank | frontend/src/components/Hero.jsx:46-58 | A search happens iff the text has a non-white-space character. Enter behaves exactly like the search button. |
| SearchBox.SearchClosesDropdown | frontend/src/components/Hero.jsx:39-52 | After selecting any item, which searches exactly that item, or after an effective search, the dropdown is closed. A blank search leaves the box as it was. |
| SearchBox.ShortInputClosesDropdown | frontend/src/components/Hero.jsx:12-15 | Input under two characters closes the dropdown without a request. |
| SearchBox.ClickOutsideKeepsDropdownWithText | frontend/src/components/Hero.jsx:192 | With non-empty text and suggestions, a click outside unfocuses, but the dropdown stays visible because the predicate is `focused or text`. |
| SearchBox.LastArrivalWins | frontend/src/components/Hero.jsx:11-31 | Over any sequence of arriving replies, the last successful one decides the list. Failures alone change nothing. Text and focus are kept. |
| SearchBox.Apply | frontend/src/components/Hero.jsx:11-66 | Each input calls `onSearch` at most once and never erases earlier calls. Typing, a suggestion reply, focus and a mouse press never call it. A keystroke applies `handleChange` to the box and files a request exactly when the value has two or more characters. A reply to a pending request applies the fetch outcome and retires that request. A mouse press applies the outside-click rule. |
| SearchBox.NoStalenessCheck | frontend/src/components/Hero.jsx:17-27 | Which pending request a reply answers makes no difference to the box. |
| SearchBox.StaleReplyOverwrites | frontend/src/components/Hero.jsx:11-31 | Requests for "ab" then "abc", answered out of order, leave the "ab" suggestions shown under the text "abc". |
| SearchBox.PickSearchesOnce | frontend/src/components/Hero.jsx:39-44 | Picking shown item s sets text := s, empties the list, unfocuses, and appends exactly one search for s. |
| SearchBox.Focus | frontend/src/components/Hero.jsx:171 | Focusing the input sets the focus flag and leaves the text and suggestions alone. |
| SearchBox.SearchButtonLikeEnter | frontend/src/components/Hero.jsx:46-58 | At session level the search button and Enter have the same effect: exactly one search for the untrimmed text when it is not blank, none otherwise. |
| SearchBox.FocusShowsSuggestions | frontend/src/components/Hero.jsx:171-192 | Focusing the input shows the dropdown whenever there are suggestions, and files no request or search. |
| SearchBox.TypingRequests | frontend/src/components/Hero.jsx:33-37 | A keystroke sets the text. It adds exactly one pending request, for the value, iff the value has at least two characters. |
| JsText.TrimEmptyIffBlank | frontend/src/components/Hero.jsx:47 | `trim()` yields "" iff every character is ECMAScript white space or a line terminator. |
| Home.Start | frontend/src/components/Home.jsx:13-15 | Starting a search sets loading before the request and changes nothing else. |
| Home.Complete | frontend/src/components/Home.jsx:25-38 | Every completion clears loading. Success replaces matched and recommendations verbatim, and a non-null matched song becomes current; a null one leaves current as it was. Failure changes nothing else. |
| Home.SelectSong | frontend/src/components/Home.jsx:42-45 | Selecting sets the current song and nothing else. |
| Home.FailedSearchRestores | frontend/src/components/Home.jsx:13-38 | A failed search shows loading, then returns exactly to the prior state. |
| Home.DeliveredSearchPublishes | frontend/src/components/Home.jsx:25-37 | A delivered reply with a matched song leaves loading false, publishes both fields in order, and plays the match. |
| Home.LaterReplyWins | frontend/src/components/Home.jsx:13-38 | Of two replies, the later delivered one is what stays shown. |
| Home.CurrentNeverCleared | frontend/src/components/Home.jsx:30-45 | No handler sets the current song back to null. |
| Home.RunKeepsSound | frontend/src/components/Home.jsx:15-37 | Over any action sequence, loading implies a request in flight. |
| Home.LoadingMeansInFlight | frontend/src/components/Home.jsx:8-15 | From the initial state, loading implies an outstanding request. |
| Home.OverlapClearsLoadingEarly | frontend/src/components/Home.jsx:15-37 | With two overlapping searches, the first reply clears loading while one request is still pending. |
| ResultsView.FormatDuration | frontend/src/components/RecommendationSection.jsx:5-9 | The label is decimal digits, a colon, then exactly two digits. The minutes numeral has no leading zero. |
| ResultsView.FormatDurationReadsBack | frontend/src/components/RecommendationSection.jsx:5-9 | Read back, seconds lie in [0,59] and minutes·60000 + seconds·1000 ≤ ms < that + 1000, so only the sub-second part is lost. Minutes reach 60 and beyond: there is no hours field. |
| ResultsView.PanelFor | frontend/src/components/RecommendationSection.jsx:33-58 | Loading takes precedence. Otherwise empty recommendations give the prompt. Anything else gives the grid of exactly the recommendations, whose matched card is the matched argument. |
| ResultsView.MatchedCardShown | frontend/src/components/RecommendationSection.jsx:46-58 | The matched card shows iff a matched song is present, recommendations are non-empty, and nothing is loading. |
| ResultsView.EmptyResultsHideMatch | frontend/src/components/RecommendationSection.jsx:46-58 | A matched song with no recommendations is not shown. |
| ResultsView.Selected | frontend/src/components/RecommendationSection.jsx:63-200 | A click selects only a rendered element. The matched card selects the matched song, card i selects exactly recommendation i, and a Spotify link selects nothing. |
| ResultsView.MatchedCardSelectsMatch | frontend/src/components/RecommendationSection.jsx:58-63 | With results shown, clicking the matched card selects exactly the matched song. |
| ResultsView.CardSelectsItsSong | frontend/src/components/RecommendationSection.jsx:126-133 | Card i of the shown grid selects recommendation i. While loading, no card exists. |
| Decimal.ParseNatToString | frontend/src/components/RecommendationSection.jsx:8 | The numeral a template literal prints for a natural reads back as that natural. |
| Decimal.NatToStringInjective | frontend/src/components/RecommendationSection.jsx:8 | Different naturals print differently. |
| Backend.VideoRequest | backend/app.py:26-42 | A missing or empty API key gives no request. Otherwise the request carries the key, one result, and the query `song + " " + artist + " official song"`. |
| Backend.YoutubeVideo | backend/app.py:26-54 | Without a truthy API key the lookup returns None. With one, the result is the first-item pick from the API's reply to the built request. |
| Backend.PickVideo | backend/app.py:44-54 | An exception gives None. For a dict reply whose `items` is a non-empty list, the result is exactly the first item's `id.videoId`, or None when that item lacks it. Any id found comes from such a reply. Partners: PickVideoSound, FirstItemDecides, NoItemsNoVideo. |
| Backend.LookupAsksOnce | backend/app.py:44-46 | The answer depends on the API only through the single request built. Without a key the API is not consulted at all. |
| Backend.FirstItemDecides | backend/app.py:48-49 | Any first item that is a dict with an `id` dict holding `videoId` yields that value, whatever other keys the item and its `id` carry and whatever items follow. |
| Backend.NoItemsNoVideo | backend/app.py:48-54 | An empty or missing `items` gives None. |
| Backend.PickVideoSound | backend/app.py:44-54 | Any id found is `items[0]["id"]["videoId"]` of a dict reply whose `items` is a non-empty list. Every other shape, and every exception, gives None. |
| Backend.Augmented | backend/app.py:81-86 | An entry gains `youtube_video_id`. All other keys and values are preserved, and the lookup gets `track_name` and `artist`, defaulting to "". |
| Backend.AugmentedLooksUpEntry | backend/app.py:82-86 | With a key, the stored value is the API's answer to the query built from the entry's own `track_name` and `artist`. With both missing, the query is "  official song". Without a key, the stored value is None. |
| Backend.AugmentAll | backend/app.py:80-86 | The loop succeeds iff every entry is a dict. Each entry is then augmented in place, keeping list length and order. |
| Backend.AugmentField | backend/app.py:80-86 | A list is augmented entry by entry. An empty string or dict iterates zero times and passes unchanged. Other strings and dicts, and None, booleans and numbers, raise. |
| Backend.RecommendRoute | backend/app.py:66-88 | A falsy or missing `song` gives `matched_song: None` and `["No song provided"]`. A result without "recommendations" is returned unchanged. Otherwise the keys are kept and, for a list of dicts, each entry is augmented in order. |
| Backend.SearchRoute | backend/app.py:91-98 | `/search` returns `search_songs(query)` under the single key "suggestions", with the query defaulting to None. A non-dict body is a server error. |
| App.Next | frontend/src/components/Home.jsx:56-69 | A search starts a request and sets loading. A player click reaches the player and leaves the container alone. A results click under the fullscreen overlay only leaves fullscreen. A `/recommend` reply goes to the container's completion handler. Any other change hands the current song to the player. Partners: NextKeepsCoherent, SearchShowsSpinner, FailedReplyStopsSpinner, MatchedCardPlays. |
| App.NextKeepsCoherent | frontend/src/components/Home.jsx:42-69 | Every application input keeps the player's song equal to the current song, along with the player invariant and loading soundness. |
| App.RunKeepsCoherent | frontend/src/components/Home.jsx:56-69 | Coherence survives any input sequence. |
| App.ReachableCoherent | frontend/src/components/Home.jsx:8-69 | Every reachable application state is coherent. |
| App.NeverHiddenAgain | frontend/src/components/Home.jsx:30-45 | Once a song plays, no input sequence hides the player again. |
| App.ClickCardPlays | frontend/src/components/Home.jsx:42-45 | Outside fullscreen, clicking card i plays recommendation i, auto-expanding when it is a new identity. |
| App.SearchShowsSpinner | frontend/src/components/Home.jsx:13-15 | `onSearch` starts a recommendation request: the section shows the spinner, one more request is in flight, and the player is untouched. |
| App.ClickUnderOverlayExitsFullscreen | frontend/src/components/MusicPlayer.jsx:215-222 | In Fullscreen, a click on any result selects nothing and returns the player to Expanded. |
| App.FailedReplyStopsSpinner | frontend/src/components/Home.jsx:34-37 | A failed request still clears loading through the `finally`, retires one in-flight request, and leaves the player untouched. |
| App.MatchedCardPlays | frontend/src/components/RecommendationSection.jsx:58-63 | Outside fullscreen, clicking the matched card of a shown grid makes the matched song current and plays it, expanding when it is a new identity. |
| App.MatchedSongPlays | frontend/src/components/Home.jsx:30-32 | A delivered matched song becomes the player's song, expanding when it is new. |

## Left out

- Markup, CSS classes, animations, the video-embed URL and link targets are left out. They are presentation only, with one exception that is modelled: the fullscreen overlay stacks above the results and catches clicks aimed at them.
- The app-level `Searched` input stands for Hero's `onSearch` however it is triggered. The model does not separate the Enter key, which still works under the fullscreen overlay, from clicks on the button or a suggestion, which the overlay would intercept.
- The root `src/components` prototypes, `Features.jsx` and `Contact.jsx` are left out: they are static or simulated UI with no state logic.
- The player's "Next Song" button is left out: `onNext` is never passed by `Home.jsx`.
- The `/` route and the start-up and error logging (`print`, `console.error`) are left out: they have no effect on state.
- Real concurrency is not modelled. Replies are discrete events applied in any order, and the React render between a prop change and its effect is not modelled.
- Flask, CORS, dotenv, `requests`, `fetch` and `response.json()` are abstracted away. A reply is either a body or an exception.
- Reply bodies are assumed well shaped on the front end: suggestions are a string list or absent, and `/recommend` gives a song-or-null and a song list. A non-list truthy `suggestions`, a missing `recommendations` field, and the back end's string list `["No song provided"]` reaching the grid are not modelled.
- Song `title` and `artist` are always strings. JavaScript would print a missing one as "undefined" in the identity key.
- ResultsView.FormatDuration: defined on naturals only. Negative and fractional milliseconds are not modelled.
- Backend.PyStr: renders a list or dict argument as a fixed placeholder rather than Python's `repr` of its contents. Dict key order is not modelled either.
- The request body is assumed to be a JSON value. A non-JSON body, which Flask rejects before the route runs, is not modelled.
- `recommend` is assumed to return a dict.
- Backend.Json has no float case. A float field, such as NaN printed as "nan" in the query, and the truthiness of a float `song` are not modelled.
- `recommend`, `search_songs` and `jsonify` are modelled as total, so they never raise. Backend.SearchRoute's "server error iff the body is not a dict" holds only under this assumption.
- The augmentation loop assumes no entry dict appears twice in the list: aliasing between entries is not modelled.
- Text length counts code points, where JavaScript counts UTF-16 units.

=== FILE: app.dfy ===
/**
 * How Home.jsx wires its children: a search starts a recommendation request, a click in the
 * results section selects a song, and the current song is the player's `song` prop.
 */
module App {
  import opened Wrappers
  import opened Songs
  import H = Home
  import P = Player
  import R = ResultsView

  datatype AppState = AppState(world: H.World, player: P.PlayerState)

  const Initial := AppState(H.World(H.Initial, 0), P.Initial)

  datatype AppInput =
    | Searched                      // Hero's `onSearch`
    | Replied(reply: H.Reply)       // a `/recommend` reply arrives
    | ResultClicked(target: R.Target)
    | PlayerClicked(control: P.Control)

  /** The section rendered from the container's state. */
  function PanelOf(h: H.Home): R.Panel {
    R.PanelFor(h.matched, h.recommendations, h.loading)
  }

  /**
   * The container reacts first; then the player sees the (possibly new) current song. While the
   * player is fullscreen its full-viewport overlay lies above the results section, so a click aimed
   * at the results lands on the overlay instead.
   */
  function Next(a: AppState, input: AppInput): (r: AppState)
    ensures input.PlayerClicked? ==> r.world == a.world && r.player == P.Click(a.player, input.control)
    ensures input.Searched? ==> r.world == H.Act(a.world, H.Search) && r.world.home.loading
    ensures input.Replied? ==> r.world == H.Act(a.world, H.Arrive(input.reply))
    ensures input.ResultClicked? && P.OverlayVisible(a.player) ==>
      r.world == a.world && !r.player.fullscreen && r.player.expanded == a.player.expanded
    ensures !input.PlayerClicked? && !(input.ResultClicked? && P.OverlayVisible(a.player)) && r != a ==>
      r.player.song == r.world.home.current
  {
    match input
    case Searched =>
      var w := H.Act(a.world, H.Search);
      AppState(w, P.ReceiveSong(a.player, w.home.current))
    case Replied(reply) =>
      var w := H.Act(a.world, H.Arrive(reply));
      AppState(w, P.ReceiveSong(a.player, w.home.current))
    case ResultClicked(t) =>
      if P.OverlayVisible(a.player) then a.(player := P.Click(a.player, P.Overlay))
      else (match R.Selected(PanelOf(a.world.home), t)
       case None => a
       case Some(s) =>
         var w := H.Act(a.world, H.Choose(s));
         AppState(w, P.ReceiveSong(a.player, w.home.current)))
    case PlayerClicked(c) => a.(player := P.Click(a.player, c))
  }

  function RunApp(a: AppState, inputs: seq<AppInput>): AppState
    decreases |inputs|
  {
    if inputs == [] then a else RunApp(Next(a, inputs[0]), inputs[1..])
  }

  /** The player shows the container's current song and keeps its own invariant. */
  predicate Coherent(a: AppState) {
    && a.player.song == a.world.home.current
    && P.Inv(a.player)
    && H.Sound(a.world)
  }

  lemma NextKeepsCoherent(a: AppState, input: AppInput)
    requires Coherent(a)
    ensures Coherent(Next(a, input))
  {
    match input
    case PlayerClicked(c) =>
      P.StepPreservesInv(a.player, P.Clicked(c));
    case _ =>
  }

  lemma {:induction false} RunKeepsCoherent(a: AppState, inputs: seq<AppInput>)
    requires Coherent(a)
    ensures Coherent(RunApp(a, inputs))
    decreases |inputs|
  {
    if inputs != [] {
      NextKeepsCoherent(a, inputs[0]);
      RunKeepsCoherent(Next(a, inputs[0]), inputs[1..]);
    }
  }

  /** Once a song is playing the player is never Hidden again: nothing in Home clears the current song. */
  lemma {:induction false} NeverHiddenAgain(a: AppState, inputs: seq<AppInput>)
    requires Coherent(a) && a.world.home.current.Some?
    ensures P.ViewOf(RunApp(a, inputs).player) != P.Hidden
    decreases |inputs|
  {
    if inputs != [] {
      NextKeepsCoherent(a, inputs[0]);
      NeverHiddenAgain(Next(a, inputs[0]), inputs[1..]);
    }
  }

  /** Every reachable application state is coherent, so fullscreen implies expanded in the whole app. */
  lemma ReachableCoherent(inputs: seq<AppInput>)
    ensures Coherent(RunApp(Initial, inputs))
    ensures RunApp(Initial, inputs).player.fullscreen ==> RunApp(Initial, inputs).player.expanded
  {
    RunKeepsCoherent(Initial, inputs);
  }

  /** Clicking card `i` of a shown grid plays recommendation `i`, auto-expanding when it is a new track. */
  lemma ClickCardPlays(a: AppState, i: nat)
    requires Coherent(a) && !a.player.fullscreen
    requires !a.world.home.loading && i < |a.world.home.recommendations|
    ensures
      var s := a.world.home.recommendations[i];
      var b := Next(a, ResultClicked(R.Card(i)));
      && b.world.home.current == Some(s)
      && b.player.song == Some(s)
      && (a.player.prevId != Some(P.IdentityKey(s)) ==> P.ViewOf(b.player) == P.Expanded)
  {
  }

  /** `onSearch` starts a recommendation request: the section shows the spinner and the player is untouched. */
  lemma SearchShowsSpinner(a: AppState)
    requires Coherent(a)
    ensures PanelOf(Next(a, Searched).world.home) == R.Spinner
    ensures Next(a, Searched).world.inFlight == a.world.inFlight + 1
    ensures Next(a, Searched).player == a.player
  {
    P.SameSongNoChange(a.player);
  }

  /** A failed `/recommend` request still takes the spinner down (the `finally`) and leaves the player alone. */
  lemma FailedReplyStopsSpinner(a: AppState)
    requires Coherent(a) && a.world.inFlight > 0
    ensures !Next(a, Replied(H.RequestFailed)).world.home.loading
    ensures Next(a, Replied(H.RequestFailed)).world.inFlight == a.world.inFlight - 1
    ensures Next(a, Replied(H.RequestFailed)).player == a.player
  {
    P.SameSongNoChange(a.player);
  }

  /** Outside fullscreen a click on the matched card of a shown grid plays the matched song. */
  lemma MatchedCardPlays(a: AppState, m: Song)
    requires Coherent(a) && !a.player.fullscreen
    requires !a.world.home.loading && a.world.home.recommendations != [] && a.world.home.matched == Some(m)
    ensures Next(a, ResultClicked(R.MatchedCard)).world.home.current == Some(m)
    ensures Next(a, ResultClicked(R.MatchedCard)).player.song == Some(m)
    ensures a.player.prevId != Some(P.IdentityKey(m)) ==>
      P.ViewOf(Next(a, ResultClicked(R.MatchedCard)).player) == P.Expanded
  {
  }

  /** In Fullscreen a click on any result only leaves fullscreen: nothing is selected. */
  lemma ClickUnderOverlayExitsFullscreen(a: AppState, t: R.Target)
    requires Coherent(a) && P.ViewOf(a.player) == P.Fullscreen
    ensures Next(a, ResultClicked(t)).world == a.world
    ensures P.ViewOf(Next(a, ResultClicked(t)).player) == P.Expanded
  {
  }

  /** A delivered reply with a matched song plays it at once. */
  lemma MatchedSongPlays(a: AppState, m: Song, recs: seq<Song>)
    requires Coherent(a) && a.world.inFlight > 0
    ensures Next(a, Replied(H.Delivered(Some(m), recs))).player.song == Some(m)
    ensures a.player.prevId != Some(P.IdentityKey(m)) ==>
      P.ViewOf(Next(a, Replied(H.Delivered(Some(m), recs))).player) == P.Expanded
  {
  }
}

=== FILE: backend.dfy ===
/**
 * The Flask back end of app.py: the YouTube lookup, the `/recommend` guard and augmentation loop,
 * and the `/search` wrapping. `recommend`, `search_songs` and the YouTube Data API are parameters.
 */
module Backend {
  import opened Wrappers
  import opened Decimal

  /** A decoded JSON value as Python sees it; numbers are integers only. */
  datatype Json =
    | JNull
    | JBool(b: bool)
    | JInt(i: int)
    | JStr(s: string)
    | JList(items: seq<Json>)
    | JDict(fields: map<string, Json>)

  /** Python truthiness: `None`, `False`, `0` and empty strings, lists and dicts are false. */
  predicate Truthy(v: Json) {
    match v
    case JNull => false
    case JBool(b) => b
    case JInt(i) => i != 0
    case JStr(s) => s != ""
    case JList(items) => items != []
    case JDict(fields) => fields != map[]
  }

  /** `str(v)` for the scalar values an f-string meets here. */
  function PyStr(v: Json): string {
    match v
    case JNull => "None"
    case JBool(b) => if b then "True" else "False"
    case JInt(i) => IntToString(i)
    case JStr(s) => s
    case JList(_) => "[...]"
    case JDict(_) => "{...}"
  }

  /** `d.get(key, default)`. */
  function Get(fields: map<string, Json>, key: string, default: Json): Json {
    if key in fields then fields[key] else default
  }

  /** The HTTP request `get_youtube_video` sends: `part=snippet`, the query, the key, `type=video`, one result. */
  datatype VideoSearch = VideoSearch(part: string, q: string, key: string, kind: string, maxResults: nat)

  /** The outcome of the HTTP call and `response.json()`: a body, or an exception from either. */
  datatype HttpReply = Body(data: Json) | Raised

  const QuerySuffix := " official song"

  /** No request without a (truthy) API key; otherwise the f-string query. */
  function VideoRequest(apiKey: Option<string>, song: Json, artist: Json): (r: Option<VideoSearch>)
    ensures apiKey.None? || apiKey == Some("") <==> r.None?
    ensures r.Some? ==> r.value.key == apiKey.value && r.value.maxResults == 1
    ensures r.Some? ==> r.value.q == PyStr(song) + " " + PyStr(artist) + QuerySuffix
  {
    match apiKey
    case None => None
    case Some(k) =>
      if k == "" then None
      else Some(VideoSearch("snippet", PyStr(song) + " " + PyStr(artist) + QuerySuffix, k, "video", 1))
  }

  /** `item["id"]["videoId"]`, where a missing key or a non-dict raises and is caught as `None`. */
  function VideoIdOf(item: Json): (r: Option<Json>)
    ensures r.Some? <==> item.JDict? && "id" in item.fields && item.fields["id"].JDict? && "videoId" in item.fields["id"].fields
    ensures r.Some? ==> r.value == item.fields["id"].fields["videoId"]
  {
    if item.JDict? && "id" in item.fields && item.fields["id"].JDict? && "videoId" in item.fields["id"].fields
    then Some(item.fields["id"].fields["videoId"])
    else None
  }

  /**
   * `data["items"][0]["id"]["videoId"]` guarded by `"items" in data and len(data["items"]) > 0`.
   * Only a dict whose `items` is a non-empty list can yield a value: a non-empty string or dict
   * passes the length test and then raises on indexing, and the handler turns that into `None`.
   */
  function PickVideo(reply: HttpReply): (r: Option<Json>)
    ensures reply.Raised? ==> r == None
    ensures r.Some? ==> reply.data.JDict? && "items" in reply.data.fields && reply.data.fields["items"].JList?
    ensures
      (&& reply.Body? && reply.data.JDict? && "items" in reply.data.fields && reply.data.fields["items"].JList?
       && |reply.data.fields["items"].items| > 0)
      ==> r == VideoIdOf(reply.data.fields["items"].items[0])
  {
    match reply
    case Raised => None
    case Body(data) =>
      if data.JDict? && "items" in data.fields && data.fields["items"].JList? && |data.fields["items"].items| > 0
      then VideoIdOf(data.fields["items"].items[0])
      else None
  }

  /** `get_youtube_video`, with the YouTube Data API as the function `youtube`. */
  function YoutubeVideo(apiKey: Option<string>, song: Json, artist: Json, youtube: VideoSearch -> HttpReply): (r: Option<Json>)
    ensures apiKey.None? || apiKey == Some("") ==> r == None
    ensures r.Some? ==> VideoRequest(apiKey, song, artist).Some?
    ensures VideoRequest(apiKey, song, artist).Some? ==>
      r == PickVideo(youtube(VideoRequest(apiKey, song, artist).value))
  {
    match VideoRequest(apiKey, song, artist)
    case None => None
    case Some(req) => PickVideo(youtube(req))
  }

  /**
   * The lookup asks the API at most once, with the request `VideoRequest` builds: two APIs that agree
   * on that request give the same answer, and without a key the API is not consulted at all.
   */
  lemma LookupAsksOnce(apiKey: Option<string>, song: Json, artist: Json, y1: VideoSearch -> HttpReply, y2: VideoSearch -> HttpReply)
    requires VideoRequest(apiKey, song, artist).None? || y1(VideoRequest(apiKey, song, artist).value) == y2(VideoRequest(apiKey, song, artist).value)
    ensures YoutubeVideo(apiKey, song, artist, y1) == YoutubeVideo(apiKey, song, artist, y2)
  {
  }

  /** The first item decides: whatever follows it, a reply whose first item carries a video id yields that id. */
  lemma FirstItemDecides(first: Json, rest: seq<Json>, other: map<string, Json>)
    requires first.JDict? && "id" in first.fields && first.fields["id"].JDict?
    requires "videoId" in first.fields["id"].fields
    ensures PickVideo(Body(JDict(other["items" := JList([first] + rest)]))) == Some(first.fields["id"].fields["videoId"])
  {
  }

  /** No items, or no `items` key at all, gives no video. */
  lemma NoItemsNoVideo(other: map<string, Json>)
    ensures PickVideo(Body(JDict(other["items" := JList([])]))) == None
    ensures "items" !in other ==> PickVideo(Body(JDict(other))) == None
  {
  }

  /** A found video id is always taken from some `items[0]["id"]["videoId"]` of a dict reply. */
  lemma PickVideoSound(reply: HttpReply)
    ensures PickVideo(reply).Some? ==>
      && reply.Body? && reply.data.JDict? && "items" in reply.data.fields
      && reply.data.fields["items"].JList? && |reply.data.fields["items"].items| > 0
      && VideoIdOf(reply.data.fields["items"].items[0]) == PickVideo(reply)
  {
  }

  const VideoKey := "youtube_video_id"

  /** The value stored under `youtube_video_id`: the id found, or `None`. */
  function VideoJson(id: Option<Json>): Json {
    match id
    case Some(v) => v
    case None => JNull
  }

  /** One entry after the loop body: the lookup gets `track_name` and `artist`, defaulting to "". */
  function Augmented(rec: map<string, Json>, apiKey: Option<string>, youtube: VideoSearch -> HttpReply): (r: map<string, Json>)
    ensures r.Keys == rec.Keys + {VideoKey}
    ensures forall k :: k in rec && k != VideoKey ==> r[k] == rec[k]
  {
    rec[VideoKey := VideoJson(YoutubeVideo(apiKey, Get(rec, "track_name", JStr("")), Get(rec, "artist", JStr("")), youtube))]
  }

  /**
   * With a key, the value stored for an entry is what the API answers to the query built from the
   * entry's own `track_name` and `artist`; a missing one contributes "".
   */
  lemma AugmentedLooksUpEntry(rec: map<string, Json>, key: string, youtube: VideoSearch -> HttpReply)
    requires key != ""
    ensures
      var q := PyStr(Get(rec, "track_name", JStr(""))) + " " + PyStr(Get(rec, "artist", JStr(""))) + QuerySuffix;
      Augmented(rec, Some(key), youtube)[VideoKey] == VideoJson(PickVideo(youtube(VideoSearch("snippet", q, key, "video", 1))))
    ensures "track_name" !in rec && "artist" !in rec ==>
      Augmented(rec, Some(key), youtube)[VideoKey] ==
        VideoJson(PickVideo(youtube(VideoSearch("snippet", "  official song", key, "video", 1))))
    ensures Augmented(rec, None, youtube)[VideoKey] == JNull
  {
    assert "" + " " + "" + QuerySuffix == "  official song";
  }

  /** A Python exception inside the route: Flask answers with an internal server error. */
  datatype Response = Ok(body: Json) | ServerError

  /**
   * `for rec in result["recommendations"]: rec["youtube_video_id"] = ...`, for a list value.
   * Entries that are not dicts have no `.get` and raise.
   */
  method AugmentAll(items: seq<Json>, apiKey: Option<string>, youtube: VideoSearch -> HttpReply)
    returns (r: Option<seq<Json>>)
    ensures r.Some? <==> forall i :: 0 <= i < |items| ==> items[i].JDict?
    ensures r.Some? ==> |r.value| == |items|
    ensures r.Some? ==> forall i :: 0 <= i < |items| ==>
      r.value[i] == JDict(Augmented(items[i].fields, apiKey, youtube))
  {
    var out: seq<Json> := [];
    var i := 0;
    while i < |items|
      invariant 0 <= i <= |items|
      invariant |out| == i
      invariant forall j :: 0 <= j < i ==> items[j].JDict?
      invariant forall j :: 0 <= j < i ==> out[j] == JDict(Augmented(items[j].fields, apiKey, youtube))
    {
      if !items[i].JDict? {
        return None;
      }
      out := out + [JDict(Augmented(items[i].fields, apiKey, youtube))];
      i := i + 1;
    }
    r := Some(out);
  }

  /**
   * The loop over whatever `result["recommendations"]` holds. Iterating a string yields strings and
   * iterating a dict yields its keys, both without `.get`, so only empty ones get through; `None`,
   * booleans and numbers are not iterable.
   */
  method AugmentField(v: Json, apiKey: Option<string>, youtube: VideoSearch -> HttpReply) returns (r: Option<Json>)
    ensures v.JStr? ==> r == (if v.s == "" then Some(v) else None)
    ensures v.JDict? ==> r == (if v.fields == map[] then Some(v) else None)
    ensures v.JNull? || v.JBool? || v.JInt? ==> r == None
    ensures v.JList? && r.Some? ==> r.value.JList? && |r.value.items| == |v.items|
    ensures v.JList? ==> (r.Some? <==> forall i :: 0 <= i < |v.items| ==> v.items[i].JDict?)
    ensures v.JList? && r.Some? ==> forall i :: 0 <= i < |v.items| ==>
      r.value.items[i] == JDict(Augmented(v.items[i].fields, apiKey, youtube))
  {
    match v {
      case JList(items) =>
        var out := AugmentAll(items, apiKey, youtube);
        r := if out.Some? then Some(JList(out.value)) else None;
      case JStr(s) =>
        r := if s == "" then Some(v) else None;
      case JDict(fields) =>
        r := if fields == map[] then Some(v) else None;
      case _ =>
        r := None;
    }
  }

  /** The reply to an empty or missing song. */
  const NoSongBody := JDict(map["matched_song" := JNull, "recommendations" := JList([JStr("No song provided")])])

  /**
   * The `/recommend` route. `recommend` is the unseen model call, which returns a dict; `data.get`
   * on a body that is not a dict raises.
   */
  method RecommendRoute(
    data: Json,
    recommend: Json -> map<string, Json>,
    apiKey: Option<string>,
    youtube: VideoSearch -> HttpReply)
    returns (r: Response)
    ensures !data.JDict? ==> r == ServerError
    ensures data.JDict? && !Truthy(Get(data.fields, "song", JNull)) ==> r == Ok(NoSongBody)
    ensures data.JDict? && Truthy(Get(data.fields, "song", JNull)) && "recommendations" !in recommend(data.fields["song"]) ==>
      r == Ok(JDict(recommend(data.fields["song"])))
    ensures data.JDict? && Truthy(Get(data.fields, "song", JNull)) && r.Ok? ==>
      var result := recommend(data.fields["song"]);
      && r.body.JDict? && r.body.fields.Keys == result.Keys
      && (forall k :: k in result && k != "recommendations" ==> r.body.fields[k] == result[k])
    ensures data.JDict? && Truthy(Get(data.fields, "song", JNull)) ==>
      var result := recommend(data.fields["song"]);
      "recommendations" in result && result["recommendations"].JList? ==>
        var items := result["recommendations"].items;
        && (r.Ok? <==> forall i :: 0 <= i < |items| ==> items[i].JDict?)
        && (r.Ok? ==>
              && r.body.fields["recommendations"].JList?
              && |r.body.fields["recommendations"].items| == |items|
              && forall i :: 0 <= i < |items| ==>
                   r.body.fields["recommendations"].items[i] == JDict(Augmented(items[i].fields, apiKey, youtube)))
  {
    if !data.JDict? {
      return ServerError;
    }
    var song := Get(data.fields, "song", JNull);
    if !Truthy(song) {
      return Ok(NoSongBody);
    }
    var result := recommend(song);
    if "recommendations" in result {
      var field := AugmentField(result["recommendations"], apiKey, youtube);
      if field.None? {
        return ServerError;
      }
      return Ok(JDict(result["recommendations" := field.value]));
    }
    r := Ok(JDict(result));
  }

  /** The `/search` route: the unseen `search_songs` result under the single key `suggestions`. */
  function SearchRoute(data: Json, searchSongs: Json -> Json): (r: Response)
    ensures !data.JDict? <==> r == ServerError
    ensures r.Ok? ==> r.body.JDict? && r.body.fields.Keys == {"suggestions"}
    ensures r.Ok? ==> r.body.fields["suggestions"] == searchSongs(Get(data.fields, "query", JNull))
  {
    if data.JDict? then Ok(JDict(map["suggestions" := searchSongs(Get(data.fields, "query", JNull))]))
    else ServerError
  }
}

=== FILE: decimal.dfy ===
/** Decimal rendering of integers, as both JavaScript template literals and Python's `str()` produce it. */
module Decimal {

  predicate IsDigit(c: char) {
    '0' <= c <= '9'
  }

  predicate AllDigits(s: string) {
    forall i :: 0 <= i < |s| ==> IsDigit(s[i])
  }

  function DigitChar(d: nat): (c: char)
    requires d < 10
    ensures IsDigit(c)
  {
    ('0' as int + d) as char
  }

  function DigitValue(c: char): (d: nat)
    requires IsDigit(c)
    ensures d < 10
  {
    c as int - '0' as int
  }

  /** Shortest decimal numeral of `n`: digits only, no leading zero. */
  function NatToString(n: nat): (s: string)
    ensures 1 <= |s|
    ensures AllDigits(s)
    ensures 1 < |s| ==> s[0] != '0'
    ensures n < 10 <==> |s| == 1
    decreases n
  {
    if n < 10 then [DigitChar(n)] else NatToString(n / 10) + [DigitChar(n % 10)]
  }

  /** Signed numeral: a leading '-' for negatives, as `str(int)` in Python. */
  function IntToString(i: int): (s: string)
    ensures 1 <= |s|
    ensures i < 0 <==> s[0] == '-'
    ensures i >= 0 ==> s == NatToString(i)
  {
    if i < 0 then "-" + NatToString(-i) else NatToString(i)
  }

  /** The value denoted by a string of decimal digits (the reference reading). */
  function ParseNat(s: string): nat
    requires AllDigits(s)
  {
    if s == [] then 0 else ParseNat(s[..|s| - 1]) * 10 + DigitValue(s[|s| - 1])
  }

  lemma {:induction false} ParseNatToString(n: nat)
    ensures ParseNat(NatToString(n)) == n
    decreases n
  {
    var s := NatToString(n);
    if n >= 10 {
      ParseNatToString(n / 10);
      assert s[..|s| - 1] == NatToString(n / 10);
    }
  }

  /** Two numerals are equal exactly when their values are: the rendering is injective. */
  lemma NatToStringInjective(m: nat, n: nat)
    ensures NatToString(m) == NatToString(n) <==> m == n
  {
    if NatToString(m) == NatToString(n) {
      ParseNatToString(m);
      ParseNatToString(n);
    }
  }
}

=== FILE: home.dfy ===
/**
 * The recommendation container of Home.jsx: the matched song, the recommendations, the loading
 * flag and the song handed to the player.
 */
module Home {
  import opened Wrappers
  import opened Songs

  datatype Home = Home(
    matched: Option<Song>,
    recommendations: seq<Song>,
    loading: bool,
    current: Option<Song>)

  const Initial := Home(None, [], false, None)

  /** What a `/recommend` request resolves to: the body's two fields, or an exception. */
  datatype Reply = Delivered(matched: Option<Song>, recommendations: seq<Song>) | RequestFailed

  /** The synchronous part of `fetchRecommendations`: the loading flag goes up before the request. */
  function Start(h: Home): (r: Home)
    ensures r.loading
    ensures r.matched == h.matched && r.recommendations == h.recommendations && r.current == h.current
  {
    h.(loading := true)
  }

  /** The rest of `fetchRecommendations`, run when the reply arrives; the `finally` clears loading. */
  function Complete(h: Home, reply: Reply): (r: Home)
    ensures !r.loading
    ensures reply.RequestFailed? ==> r == h.(loading := false)
    ensures reply.Delivered? ==>
      r.matched == reply.matched && r.recommendations == reply.recommendations
    ensures reply.Delivered? && reply.matched.Some? ==> r.current == reply.matched
    ensures reply.Delivered? && reply.matched.None? ==> r.current == h.current
  {
    match reply
    case RequestFailed => h.(loading := false)
    case Delivered(m, recs) =>
      var current := if m.Some? then m else h.current;
      Home(m, recs, false, current)
  }

  /** `handleSongSelect`: the chosen song goes to the player; nothing else changes. */
  function SelectSong(h: Home, s: Song): (r: Home)
    ensures r.current == Some(s)
    ensures r.matched == h.matched && r.recommendations == h.recommendations && r.loading == h.loading
  {
    h.(current := Some(s))
  }

  /** A search that fails shows the spinner and then leaves everything as it was. */
  lemma FailedSearchRestores(h: Home)
    requires !h.loading
    ensures Start(h).loading
    ensures Complete(Start(h), RequestFailed) == h
  {
  }

  /** A delivered reply is published verbatim, its matched song starts playing, and loading ends. */
  lemma DeliveredSearchPublishes(h: Home, m: Song, recs: seq<Song>)
    ensures Complete(Start(h), Delivered(Some(m), recs)) == Home(Some(m), recs, false, Some(m))
  {
  }

  /** No request is cancelled: of two delivered replies, the one that arrives last is what stays shown. */
  lemma LaterReplyWins(h: Home, first: Reply, m: Option<Song>, recs: seq<Song>)
    ensures
      var r := Complete(Complete(h, first), Delivered(m, recs));
      r.matched == m && r.recommendations == recs && !r.loading
  {
  }

  /** Nothing in the container ever clears the current song once one is set. */
  lemma CurrentNeverCleared(h: Home, reply: Reply, s: Song)
    requires h.current.Some?
    ensures Start(h).current.Some? && Complete(h, reply).current.Some? && SelectSong(h, s).current.Some?
  {
  }

  /**
   * The container with the number of requests still in flight, which the component itself does not
   * track. Replies arrive one at a time while some request is outstanding.
   */
  datatype World = World(home: Home, inFlight: nat)

  datatype Action = Search | Arrive(reply: Reply) | Choose(song: Song)

  function Act(w: World, a: Action): World {
    match a
    case Search => World(Start(w.home), w.inFlight + 1)
    case Arrive(reply) =>
      if w.inFlight > 0 then World(Complete(w.home, reply), w.inFlight - 1) else w
    case Choose(s) => w.(home := SelectSong(w.home, s))
  }

  function RunActions(w: World, acts: seq<Action>): World
    decreases |acts|
  {
    if acts == [] then w else RunActions(Act(w, acts[0]), acts[1..])
  }

  /** The spinner is shown only while some request is outstanding. */
  predicate Sound(w: World) {
    w.home.loading ==> w.inFlight > 0
  }

  lemma {:induction false} RunKeepsSound(w: World, acts: seq<Action>)
    requires Sound(w)
    ensures Sound(RunActions(w, acts))
    decreases |acts|
  {
    if acts != [] {
      RunKeepsSound(Act(w, acts[0]), acts[1..]);
    }
  }

  /** From the initial state, loading always implies an outstanding request. */
  lemma LoadingMeansInFlight(acts: seq<Action>)
    ensures
      var w := RunActions(World(Initial, 0), acts);
      w.home.loading ==> w.inFlight > 0
  {
    RunKeepsSound(World(Initial, 0), acts);
  }

  /** The converse fails: with two searches overlapping, the first reply clears loading while one is still pending. */
  lemma OverlapClearsLoadingEarly(reply: Reply)
    ensures
      var w := RunActions(World(Initial, 0), [Search, Search, Arrive(reply)]);
      !w.home.loading && w.inFlight == 1
  {
    var acts := [Search, Search, Arrive(reply)];
    var w1 := Act(World(Initial, 0), Search);
    var w2 := Act(w1, Search);
    assert RunActions(World(Initial, 0), acts) == RunActions(w1, acts[1..]);
    assert RunActions(w1, acts[1..]) == RunActions(w2, acts[2..]);
    assert RunActions(w2, acts[2..]) == RunActions(Act(w2, Arrive(reply)), []);
  }
}

=== FILE: jstext.dfy ===
/** JavaScript `String.prototype.trim`, which the search box uses to reject blank queries. */
module JsText {

  /** The WhiteSpace and LineTerminator code points that ECMAScript's trim removes. */
  predicate IsJsSpace(c: char) {
    || c == '\t' || c == '\n' || c == '\U{000B}' || c == '\U{000C}' || c == '\r'
    || c == ' ' || c == '\U{00A0}' || c == '\U{1680}'
    || ('\U{2000}' <= c <= '\U{200A}')
    || c == '\U{2028}' || c == '\U{2029}' || c == '\U{202F}' || c == '\U{205F}'
    || c == '\U{3000}' || c == '\U{FEFF}'
  }

  /** Every character is trimmable white space (the reference notion of a blank string). */
  predicate Blank(s: string) {
    forall i :: 0 <= i < |s| ==> IsJsSpace(s[i])
  }

  function TrimStart(s: string): (r: string)
    ensures |r| <= |s| && r == s[|s| - |r|..]
    ensures Blank(s[..|s| - |r|])
    ensures r == [] || !IsJsSpace(r[0])
  {
    if s != [] && IsJsSpace(s[0]) then TrimStart(s[1..]) else s
  }

  function TrimEnd(s: string): (r: string)
    ensures |r| <= |s| && r == s[..|r|]
    ensures Blank(s[|r|..])
    ensures r == [] || !IsJsSpace(r[|r| - 1])
  {
    if s != [] && IsJsSpace(s[|s| - 1]) then TrimEnd(s[..|s| - 1]) else s
  }

  function Trim(s: string): string {
    TrimEnd(TrimStart(s))
  }

  /** `s.trim() !== ""` holds exactly when some character of `s` is not white space. */
  lemma TrimEmptyIffBlank(s: string)
    ensures Trim(s) == "" <==> Blank(s)
  {
    var t := TrimStart(s);
    if Trim(s) == "" {
      // a trimmed-at-the-front string that trims to nothing is already empty
      assert Blank(t[|TrimEnd(t)|..]);
      assert t == [];
      assert s[..|s| - |t|] == s;
    } else {
      var r := Trim(s);
      assert !IsJsSpace(r[0]);
      assert r[0] == t[0];
      assert t[0] == s[|s| - |t|];
    }
  }
}

=== FILE: player.dfy ===
/**
 * The floating player of MusicPlayer.jsx: two view flags, the song prop, and the identity of the
 * last song the song-change effect recorded.
 */
module Player {
  import opened Wrappers
  import opened Songs

  /** `song.track_id || `${song.title}-${song.artist}``, with JavaScript truthiness on the id. */
  function IdentityKey(s: Song): (k: string)
    ensures Truthy(s.trackId) ==> k == s.trackId.value
    ensures !Truthy(s.trackId) ==> k == s.title + "-" + s.artist
  {
    if Truthy(s.trackId) then s.trackId.value else s.title + "-" + s.artist
  }

  function KeyOf(song: Option<Song>): Option<string> {
    match song
    case None => None
    case Some(s) => Some(IdentityKey(s))
  }

  datatype PlayerState = PlayerState(
    song: Option<Song>,
    expanded: bool,
    fullscreen: bool,
    prevId: Option<string>)

  /** Both flags start false, the recorded identity starts null, and no song is shown. */
  const Initial := PlayerState(None, false, false, None)

  datatype View = Hidden | Mini | Expanded | Fullscreen

  /** The four user-visible situations, read off the state. */
  function ViewOf(st: PlayerState): View {
    if st.song.None? then Hidden
    else if st.fullscreen then Fullscreen
    else if st.expanded then Expanded
    else Mini
  }

  /** Render predicates: the component returns null without a song, then shows one of three layers. */
  predicate MiniVisible(st: PlayerState) {
    st.song.Some? && !st.expanded && !st.fullscreen
  }

  predicate PanelVisible(st: PlayerState) {
    st.song.Some? && (st.expanded || st.fullscreen)
  }

  predicate OverlayVisible(st: PlayerState) {
    st.song.Some? && st.fullscreen
  }

  /** A new song prop followed by the song-change effect. */
  function ReceiveSong(st: PlayerState, song: Option<Song>): (r: PlayerState)
    ensures r.song == song
    ensures song.None? ==> !r.expanded && !r.fullscreen && r.prevId == None
    ensures song.Some? && st.prevId != KeyOf(song) ==>
      r.expanded && !r.fullscreen && r.prevId == KeyOf(song)
    ensures song.Some? && st.prevId == KeyOf(song) ==> r == st.(song := song)
  {
    match song
    case None => PlayerState(None, false, false, None)
    case Some(s) =>
      var id := IdentityKey(s);
      if Some(id) != st.prevId then PlayerState(song, true, false, Some(id))
      else st.(song := song)
  }

  datatype Control = MiniTile | FullscreenButton | CloseButton | Overlay

  datatype Event = SongChanged(song: Option<Song>) | Clicked(control: Control)

  /** A click reaches its handler only while the element carrying it is rendered. */
  predicate Rendered(st: PlayerState, c: Control) {
    match c
    case MiniTile => MiniVisible(st)
    case FullscreenButton => PanelVisible(st)
    case CloseButton => PanelVisible(st)
    case Overlay => OverlayVisible(st)
  }

  function Click(st: PlayerState, c: Control): (r: PlayerState)
    ensures r.song == st.song && r.prevId == st.prevId
    ensures !Rendered(st, c) ==> r == st
    ensures Rendered(st, c) && c == MiniTile ==> r.expanded && r.fullscreen == st.fullscreen
    ensures Rendered(st, c) && c == FullscreenButton ==>
      r.fullscreen == !st.fullscreen && r.expanded == st.expanded
    ensures Rendered(st, c) && c == Overlay ==> !r.fullscreen && r.expanded == st.expanded
    ensures Rendered(st, c) && c == CloseButton ==> !r.expanded && !r.fullscreen
  {
    if !Rendered(st, c) then st
    else match c
      case MiniTile => st.(expanded := true)
      case FullscreenButton => st.(fullscreen := !st.fullscreen)
      case CloseButton => st.(expanded := false, fullscreen := false)
      case Overlay => st.(fullscreen := false)
  }

  function Step(st: PlayerState, e: Event): PlayerState {
    match e
    case SongChanged(song) => ReceiveSong(st, song)
    case Clicked(c) => Click(st, c)
  }

  function Run(st: PlayerState, evs: seq<Event>): PlayerState
    decreases |evs|
  {
    if evs == [] then st else Run(Step(st, evs[0]), evs[1..])
  }

  /**
   * What every reachable state satisfies: fullscreen only inside the expanded panel, no open
   * panel without a song, and the recorded identity is that of the current song.
   */
  predicate Inv(st: PlayerState) {
    && (st.fullscreen ==> st.expanded)
    && (st.song.None? ==> !st.expanded)
    && st.prevId == KeyOf(st.song)
  }

  lemma StepPreservesInv(st: PlayerState, e: Event)
    requires Inv(st)
    ensures Inv(Step(st, e))
  {
  }

  lemma {:induction false} RunPreservesInv(st: PlayerState, evs: seq<Event>)
    requires Inv(st)
    ensures Inv(Run(st, evs))
    decreases |evs|
  {
    if evs != [] {
      StepPreservesInv(st, evs[0]);
      RunPreservesInv(Step(st, evs[0]), evs[1..]);
    }
  }

  /** Every state reachable from the initial one satisfies the invariant; in particular fullscreen implies expanded. */
  lemma Reachable(evs: seq<Event>)
    ensures Inv(Run(Initial, evs))
    ensures Run(Initial, evs).fullscreen ==> Run(Initial, evs).expanded
  {
    RunPreservesInv(Initial, evs);
  }

  /**
   * Under the invariant each view corresponds to exactly one rendered layer: nothing when
   * Hidden, the mini tile when Mini, the panel alone when Expanded, panel and overlay when Fullscreen.
   */
  lemma ViewMatchesRender(st: PlayerState)
    requires Inv(st)
    ensures ViewOf(st) == Hidden <==> !MiniVisible(st) && !PanelVisible(st) && !OverlayVisible(st)
    ensures ViewOf(st) == Mini <==> MiniVisible(st)
    ensures ViewOf(st) == Expanded <==> PanelVisible(st) && !OverlayVisible(st)
    ensures ViewOf(st) == Fullscreen <==> OverlayVisible(st)
    ensures !(MiniVisible(st) && PanelVisible(st))
  {
  }

  /** The last song pushed into the player, or none if no song was ever pushed. */
  function LastSong(evs: seq<Event>): Option<Song>
    decreases |evs|
  {
    if evs == [] then None
    else if evs[|evs| - 1].SongChanged? then evs[|evs| - 1].song
    else LastSong(evs[..|evs| - 1])
  }

  lemma {:induction false} RunSnoc(st: PlayerState, evs: seq<Event>, e: Event)
    ensures Run(st, evs + [e]) == Step(Run(st, evs), e)
    decreases |evs|
  {
    if evs != [] {
      assert (evs + [e])[1..] == evs[1..] + [e];
      RunSnoc(Step(st, evs[0]), evs[1..], e);
    }
  }

  lemma {:induction false} RunSongIsLast(evs: seq<Event>)
    ensures Run(Initial, evs).song == LastSong(evs)
    decreases |evs|
  {
    if evs != [] {
      var init := evs[..|evs| - 1];
      assert evs == init + [evs[|evs| - 1]];
      RunSnoc(Initial, init, evs[|evs| - 1]);
      RunSongIsLast(init);
    }
  }

  /** After any event sequence the player is Hidden exactly when the most recent song pushed was absent. */
  lemma HiddenIffLastSongAbsent(evs: seq<Event>)
    ensures ViewOf(Run(Initial, evs)) == Hidden <==> LastSong(evs).None?
  {
    RunSongIsLast(evs);
  }

  /** Pushing a song with the identity already recorded changes only the prop: no second auto-expand. */
  lemma SameIdentityIdempotent(st: PlayerState, a: Song, b: Song)
    requires IdentityKey(a) == IdentityKey(b)
    ensures ReceiveSong(ReceiveSong(st, Some(a)), Some(b)) == ReceiveSong(st, Some(a)).(song := Some(b))
  {
  }

  /** Re-rendering with the unchanged song prop leaves a reachable state untouched. */
  lemma SameSongNoChange(st: PlayerState)
    requires Inv(st)
    ensures ReceiveSong(st, st.song) == st
  {
  }

  /** A song with a new identity always lands in Expanded, whatever the view was, Fullscreen included. */
  lemma NewIdentityExpands(st: PlayerState, s: Song)
    requires st.prevId != Some(IdentityKey(s))
    ensures ViewOf(ReceiveSong(st, Some(s))) == Expanded
  {
  }

  /** Clearing the song and pushing the previous one again auto-expands again. */
  lemma RepushAfterClearExpands(st: PlayerState, s: Song)
    ensures ViewOf(ReceiveSong(st, None)) == Hidden
    ensures ViewOf(ReceiveSong(ReceiveSong(st, None), Some(s))) == Expanded
  {
  }

  /** The close button returns to the mini tile, not to Hidden; the mini tile re-expands. */
  lemma CloseThenReopen(st: PlayerState)
    requires Inv(st) && PanelVisible(st)
    ensures ViewOf(Click(st, CloseButton)) == Mini
    ensures ViewOf(Click(Click(st, CloseButton), MiniTile)) == Expanded
  {
  }

  /** The fullscreen button toggles between Expanded and Fullscreen; the overlay leaves Fullscreen. */
  lemma FullscreenRoundTrip(st: PlayerState)
    requires Inv(st) && ViewOf(st) == Expanded
    ensures ViewOf(Click(st, FullscreenButton)) == Fullscreen
    ensures Click(Click(st, FullscreenButton), FullscreenButton) == st
    ensures Click(Click(st, FullscreenButton), Overlay) == st
  {
  }

  /** Track `A` then track `B` while in Fullscreen leaves the player Expanded. */
  lemma NewTrackWhileFullscreen(a: Song, b: Song)
    requires a.trackId == Some("A") && b.trackId == Some("B")
    ensures
      var st := Run(Initial, [SongChanged(Some(a)), Clicked(FullscreenButton)]);
      ViewOf(st) == Fullscreen && ViewOf(ReceiveSong(st, Some(b))) == Expanded
  {
    var evs := [SongChanged(Some(a)), Clicked(FullscreenButton)];
    var s1 := ReceiveSong(Initial, Some(a));
    assert Run(Initial, evs) == Run(s1, evs[1..]);
    assert Run(s1, evs[1..]) == Run(Click(s1, FullscreenButton), []);
  }

  /** The key ignores every field other than the id, title and artist; a late video id keeps the identity. */
  lemma KeyIgnoresVideoId(s: Song, v: Option<string>)
    ensures IdentityKey(s.(youtubeVideoId := v)) == IdentityKey(s)
    ensures Truthy(s.trackId) ==> IdentityKey(s.(title := "", artist := "")) == IdentityKey(s)
  {
  }

  /** An empty track id is falsy, so the key falls back to the title and artist. */
  lemma EmptyTrackIdFallsBack(s: Song)
    requires s.trackId == Some("")
    ensures IdentityKey(s) == s.title + "-" + s.artist
  {
  }

  /**
   * Plain concatenation lets two different songs share a key: ("a-b", "c") and ("a", "b-c").
   * The second is then taken for the first and does not auto-expand.
   */
  lemma KeyCollision(a: Song, b: Song)
    requires a.trackId == None && b.trackId == None
    requires a.title == "a-b" && a.artist == "c" && b.title == "a" && b.artist == "b-c"
    ensures a != b && IdentityKey(a) == IdentityKey(b)
    ensures ViewOf(Click(ReceiveSong(Initial, Some(a)), CloseButton)) == Mini
    ensures ViewOf(ReceiveSong(Click(ReceiveSong(Initial, Some(a)), CloseButton), Some(b))) == Mini
  {
    assert IdentityKey(a) == "a-b-c";
    assert IdentityKey(b) == "a-b-c";
  }
}

=== FILE: resultsview.dfy ===
/** RecommendationSection.jsx: the duration label, the branch it renders, and what a click selects. */
module ResultsView {
  import opened Wrappers
  import opened Decimal
  import opened Songs

  const MillisPerMinute := 60000
  const MillisPerSecond := 1000

  /** `formatDuration`: whole minutes, a colon, then the seconds padded to two digits. */
  function FormatDuration(ms: nat): (r: string)
    ensures 4 <= |r| && r[|r| - 3] == ':'
    ensures AllDigits(r[..|r| - 3]) && AllDigits(r[|r| - 2..])
    ensures |r| == 4 || r[0] != '0'
  {
    var minutes := ms / MillisPerMinute;
    var seconds := (ms % MillisPerMinute) / MillisPerSecond;
    NatToString(minutes) + ":" + (if seconds < 10 then "0" else "") + NatToString(seconds)
  }

  /**
   * Reading the label back gives a minutes field and a seconds field in [0, 59] that account for
   * every whole second of `ms`: only the sub-second part is dropped, and minutes are not capped.
   */
  lemma FormatDurationReadsBack(ms: nat)
    ensures
      var r := FormatDuration(ms);
      var minutes := ParseNat(r[..|r| - 3]);
      var seconds := ParseNat(r[|r| - 2..]);
      && 0 <= seconds <= 59
      && minutes * MillisPerMinute + seconds * MillisPerSecond <= ms
      && ms < minutes * MillisPerMinute + seconds * MillisPerSecond + MillisPerSecond
      && (ms >= 60 * MillisPerMinute ==> minutes >= 60)
  {
    var r := FormatDuration(ms);
    var m := ms / MillisPerMinute;
    var sec := (ms % MillisPerMinute) / MillisPerSecond;
    var ms' := NatToString(m);
    var ss := (if sec < 10 then "0" else "") + NatToString(sec);
    assert r == ms' + ":" + ss;
    assert r[..|r| - 3] == ms';
    assert r[|r| - 2..] == ss;
    ParseNatToString(m);
    ParseNatToString(sec);
    if sec < 10 {
      assert ss[..1] == "0";
      assert ss[..|ss| - 1] == "0";
      assert ParseNat("0") == 0 by {
        assert "0"[..0] == [];
      }
    } else {
      assert ss == NatToString(sec);
    }
  }

  /** The three-way choice of what the section shows. */
  datatype Panel = Spinner | EmptyPrompt | Grid(matchedCard: Option<Song>, cards: seq<Song>)

  function PanelFor(matched: Option<Song>, recs: seq<Song>, loading: bool): (p: Panel)
    ensures loading ==> p == Spinner
    ensures !loading && recs == [] ==> p == EmptyPrompt
    ensures !loading && recs != [] ==> p.Grid? && p.cards == recs
    ensures p.Grid? ==> p.matchedCard == matched
  {
    if loading then Spinner
    else if |recs| == 0 then EmptyPrompt
    else Grid(matched, recs)
  }

  /** The matched card is shown exactly when a matched song is present, results are non-empty, and nothing is loading. */
  lemma MatchedCardShown(matched: Option<Song>, recs: seq<Song>, loading: bool)
    ensures
      var p := PanelFor(matched, recs, loading);
      (p.Grid? && p.matchedCard.Some?) <==> (!loading && recs != [] && matched.Some?)
  {
  }

  /** An empty result list hides the matched song too, even when the service returned one. */
  lemma EmptyResultsHideMatch(m: Song)
    ensures PanelFor(Some(m), [], false) == EmptyPrompt
  {
  }

  datatype Target = MatchedCard | Card(index: nat) | SpotifyLink(index: nat)

  /** The element exists in the rendered panel (a card's Spotify link only when it has a URL). */
  predicate Present(p: Panel, t: Target) {
    match t
    case MatchedCard => p.Grid? && p.matchedCard.Some?
    case Card(i) => p.Grid? && i < |p.cards|
    case SpotifyLink(i) => p.Grid? && i < |p.cards| && Truthy(p.cards[i].spotifyUrl)
  }

  /** The song handed to `onSelectSong` by a click; the Spotify link stops propagation and selects nothing. */
  function Selected(p: Panel, t: Target): (r: Option<Song>)
    ensures r.Some? ==> Present(p, t) && !t.SpotifyLink?
    ensures Present(p, t) && t == MatchedCard ==> r == p.matchedCard
    ensures Present(p, t) && t.Card? ==> r == Some(p.cards[t.index])
    ensures t.SpotifyLink? ==> r == None
  {
    if !Present(p, t) then None
    else match t
      case MatchedCard => p.matchedCard
      case Card(i) => Some(p.cards[i])
      case SpotifyLink(_) => None
  }

  /** Clicking the matched card selects exactly the matched song. */
  lemma MatchedCardSelectsMatch(m: Song, recs: seq<Song>)
    requires recs != []
    ensures Selected(PanelFor(Some(m), recs, false), MatchedCard) == Some(m)
  {
  }

  /** Clicking grid card `i` selects recommendation `i` itself. */
  lemma CardSelectsItsSong(matched: Option<Song>, recs: seq<Song>, i: nat)
    requires i < |recs|
    ensures Selected(PanelFor(matched, recs, false), Card(i)) == Some(recs[i])
    ensures Selected(PanelFor(matched, recs, true), Card(i)) == None
  {
  }
}

=== FILE: searchbox.dfy ===
/**
 * The search box of Hero.jsx: the typed text, the suggestion list and the focus flag, plus the
 * requests and `onSearch` calls its handlers emit.
 */
module SearchBox {
  import opened Wrappers
  import opened JsText

  datatype Box = Box(text: string, suggestions: seq<string>, focused: bool)

  const Initial := Box("", [], false)

  /** Inputs shorter than this never reach the suggestion endpoint. */
  const MinQueryLength := 2

  /** The state after a handler, with the suggestion request it starts, if any. */
  datatype Typed = Typed(box: Box, request: Option<string>)

  /** The state after a handler, with the `onSearch` call it makes, if any. */
  datatype Submitted = Submitted(box: Box, search: Option<string>)

  /** `handleChange`: store the raw value, then `fetchSuggestions` either clears or requests. */
  function Change(b: Box, value: string): (t: Typed)
    ensures t.box.text == value && t.box.focused == b.focused
    ensures |value| < MinQueryLength ==> t.box.suggestions == [] && t.request == None
    ensures |value| >= MinQueryLength ==> t.box.suggestions == b.suggestions && t.request == Some(value)
  {
    if |value| < MinQueryLength then Typed(b.(text := value, suggestions := []), None)
    else Typed(b.(text := value), Some(value))
  }

  /** What a suggestion request resolves to: a body whose `suggestions` field may be absent, or an exception. */
  datatype Reply = Replied(suggestions: Option<seq<string>>) | FetchFailed

  /** A response is applied whenever it arrives; nothing compares it with the current text. */
  function Receive(b: Box, reply: Reply): (r: Box)
    ensures r.text == b.text && r.focused == b.focused
    ensures reply.FetchFailed? ==> r == b
    ensures reply.Replied? && reply.suggestions.Some? ==> r.suggestions == reply.suggestions.value
    ensures reply.Replied? && reply.suggestions.None? ==> r.suggestions == []
  {
    match reply
    case Replied(s) => b.(suggestions := s.GetOr([]))
    case FetchFailed => b
  }

  /** `handleSelect`: the chosen item becomes the text and is searched for. */
  function Select(b: Box, item: string): (r: Submitted)
    ensures r.box == Box(item, [], false)
    ensures r.search == Some(item)
  {
    Submitted(Box(item, [], false), Some(item))
  }

  /** `handleSearchClick`: acts only on text that is not blank, and searches the untrimmed text. */
  function SearchClick(b: Box): (r: Submitted)
    ensures Trim(b.text) == "" ==> r == Submitted(b, None)
    ensures Trim(b.text) != "" ==> r == Submitted(b.(suggestions := [], focused := false), Some(b.text))
  {
    if Trim(b.text) != "" then Submitted(b.(suggestions := [], focused := false), Some(b.text))
    else Submitted(b, None)
  }

  /** `handleKeyPress`: Enter on non-blank text is a search click; every other key does nothing. */
  function KeyPress(b: Box, key: string): (r: Submitted)
    ensures key != "Enter" ==> r == Submitted(b, None)
  {
    if key == "Enter" && Trim(b.text) != "" then SearchClick(b) else Submitted(b, None)
  }

  /** `onFocus`: the box becomes focused and nothing else changes. */
  function Focus(b: Box): (r: Box)
    ensures r.focused && r.text == b.text && r.suggestions == b.suggestions
  {
    b.(focused := true)
  }

  /** The document mousedown listener: a press outside the search area drops focus and nothing else. */
  function MouseDown(b: Box, insideSearch: bool): (r: Box)
    ensures r.text == b.text && r.suggestions == b.suggestions
    ensures r.focused == (b.focused && insideSearch)
  {
    if insideSearch then b else b.(focused := false)
  }

  /** `suggestions.length > 0 && (isFocused || song)`; an empty string is falsy. */
  predicate DropdownVisible(b: Box): (v: bool)
    ensures v ==> b.suggestions != []
    ensures !b.focused && b.text == "" ==> !v
    ensures b.suggestions != [] && b.text != "" ==> v
    ensures b.suggestions != [] && b.focused ==> v
  {
    |b.suggestions| > 0 && (b.focused || b.text != "")
  }

  /** Search happens exactly when the text has a character that is not white space. */
  lemma SearchIffNotBlank(b: Box)
    ensures SearchClick(b).search.Some? <==> !Blank(b.text)
    ensures KeyPress(b, "Enter") == SearchClick(b)
  {
    TrimEmptyIffBlank(b.text);
  }

  /** A search leaves the dropdown closed; a blank search changes nothing at all. */
  lemma SearchClosesDropdown(b: Box, item: string)
    ensures !DropdownVisible(SearchClick(b).box) || SearchClick(b).box == b
    ensures SearchClick(b).search.Some? ==> !DropdownVisible(SearchClick(b).box)
    ensures !DropdownVisible(Select(b, item).box) && Select(b, item).search == Some(item)
  {
  }

  /** Typing fewer than two characters closes the dropdown, with no request. */
  lemma ShortInputClosesDropdown(b: Box, value: string)
    requires |value| < MinQueryLength
    ensures !DropdownVisible(Change(b, value).box) && Change(b, value).request == None
  {
  }

  /** With text present, a click outside does not close a non-empty dropdown: only focus is lost. */
  lemma ClickOutsideKeepsDropdownWithText(b: Box)
    requires b.text != "" && |b.suggestions| > 0
    ensures DropdownVisible(MouseDown(b, false))
    ensures !MouseDown(b, false).focused
  {
  }

  /** The latest successful reply in a sequence of arrivals, if any. */
  function LastReplied(replies: seq<Reply>): Option<seq<string>>
    requires exists i :: 0 <= i < |replies| && replies[i].Replied?
    decreases |replies|
  {
    var last := replies[|replies| - 1];
    if last.Replied? then Some(last.suggestions.GetOr([]))
    else LastReplied(replies[..|replies| - 1])
  }

  function ReceiveAll(b: Box, replies: seq<Reply>): Box
    decreases |replies|
  {
    if replies == [] then b else ReceiveAll(Receive(b, replies[0]), replies[1..])
  }

  lemma {:induction false} ReceiveAllSnoc(b: Box, replies: seq<Reply>, r: Reply)
    ensures ReceiveAll(b, replies + [r]) == Receive(ReceiveAll(b, replies), r)
    decreases |replies|
  {
    if replies != [] {
      assert (replies + [r])[1..] == replies[1..] + [r];
      ReceiveAllSnoc(Receive(b, replies[0]), replies[1..], r);
    }
  }

  /**
   * Replies overwrite one another in arrival order: the last successful reply to arrive decides the
   * list; failures alone leave it as it was. The text and focus are never touched.
   */
  lemma {:induction false} LastArrivalWins(b: Box, replies: seq<Reply>)
    ensures ReceiveAll(b, replies).text == b.text && ReceiveAll(b, replies).focused == b.focused
    ensures (forall i :: 0 <= i < |replies| ==> replies[i].FetchFailed?) ==> ReceiveAll(b, replies) == b
    ensures (exists i :: 0 <= i < |replies| && replies[i].Replied?) ==>
      Some(ReceiveAll(b, replies).suggestions) == LastReplied(replies)
    decreases |replies|
  {
    if replies != [] {
      var init := replies[..|replies| - 1];
      var last := replies[|replies| - 1];
      assert replies == init + [last];
      ReceiveAllSnoc(b, init, last);
      LastArrivalWins(b, init);
      if exists i :: 0 <= i < |replies| && replies[i].Replied? {
        if !last.Replied? {
          var i :| 0 <= i < |replies| && replies[i].Replied?;
          assert init[i].Replied?;
        }
      }
      if forall i :: 0 <= i < |replies| ==> replies[i].FetchFailed? {
        assert forall i :: 0 <= i < |init| ==> init[i] == replies[i];
      }
    }
  }

  /**
   * The component together with the requests it has in flight. Requests are answered in any order
   * by picking an index; the answer is applied whichever request it belongs to.
   */
  datatype Session = Session(box: Box, pending: seq<string>, searches: seq<string>)

  datatype Input =
    | Typing(value: string)
    | Arrival(index: nat, reply: Reply)
    | Picking(index: nat)
    | SearchButton
    | KeyDown(key: string)
    | Focusing
    | MouseDownAt(insideSearch: bool)

  function Submit(s: Session, out: Submitted): Session {
    Session(out.box, s.pending, s.searches + (match out.search case Some(q) => [q] case None => []))
  }

  /** One input. A suggestion item can be picked only while the dropdown shows it. */
  function Apply(s: Session, input: Input): (r: Session)
    ensures |r.searches| <= |s.searches| + 1
    ensures s.searches <= r.searches
    ensures input.Typing? || input.Arrival? || input.Focusing? || input.MouseDownAt? ==> r.searches == s.searches
    ensures input.Typing? ==> r.box == Change(s.box, input.value).box
    ensures input.Typing? && |input.value| >= MinQueryLength ==> r.pending == s.pending + [input.value]
    ensures input.Typing? && |input.value| < MinQueryLength ==> r.pending == s.pending
    ensures input.Arrival? && input.index < |s.pending| ==> r.box == Receive(s.box, input.reply)
    ensures input.Arrival? && input.index < |s.pending| ==> |r.pending| == |s.pending| - 1
    ensures input.MouseDownAt? ==> r.box == MouseDown(s.box, input.insideSearch)
  {
    match input
    case Typing(value) =>
      var t := Change(s.box, value);
      Session(t.box, s.pending + (match t.request case Some(q) => [q] case None => []), s.searches)
    case Arrival(i, reply) =>
      if i < |s.pending| then Session(Receive(s.box, reply), s.pending[..i] + s.pending[i + 1..], s.searches)
      else s
    case Picking(i) =>
      if DropdownVisible(s.box) && i < |s.box.suggestions| then Submit(s, Select(s.box, s.box.suggestions[i]))
      else s
    case SearchButton =>
      // the button is rendered only while the text is non-empty
      if s.box.text != "" then Submit(s, SearchClick(s.box)) else s
    case KeyDown(key) => Submit(s, KeyPress(s.box, key))
    case Focusing => s.(box := Focus(s.box))
    case MouseDownAt(inside) => s.(box := MouseDown(s.box, inside))
  }

  /** No staleness check: which pending request an answer belongs to makes no difference to the box. */
  lemma NoStalenessCheck(s: Session, i: nat, j: nat, reply: Reply)
    requires i < |s.pending| && j < |s.pending|
    ensures Apply(s, Arrival(i, reply)).box == Apply(s, Arrival(j, reply)).box
  {
  }

  /**
   * A stale answer wins: "ab" then "abc" are requested, the answer for "abc" arrives first and the
   * answer for "ab" second, and the list shown under "abc" is the one for "ab".
   */
  lemma StaleReplyOverwrites(forAb: seq<string>, forAbc: seq<string>)
    ensures
      var s2 := Apply(Apply(Session(Initial, [], []), Typing("ab")), Typing("abc"));
      var s3 := Apply(s2, Arrival(1, Replied(Some(forAbc))));
      var s4 := Apply(s3, Arrival(0, Replied(Some(forAb))));
      s2.pending == ["ab", "abc"] && s4.box.text == "abc" && s4.box.suggestions == forAb && s4.pending == []
  {
  }

  /** Picking a shown suggestion searches for exactly that item, once. */
  lemma PickSearchesOnce(s: Session, i: nat)
    requires DropdownVisible(s.box) && i < |s.box.suggestions|
    ensures Apply(s, Picking(i)).searches == s.searches + [s.box.suggestions[i]]
    ensures Apply(s, Picking(i)).box == Box(s.box.suggestions[i], [], false)
  {
  }

  /**
   * The search button (rendered only with text) and Enter act alike: one search for the untrimmed
   * text when it is not blank, none otherwise.
   */
  lemma SearchButtonLikeEnter(s: Session)
    ensures Apply(s, SearchButton) == Apply(s, KeyDown("Enter"))
    ensures Apply(s, SearchButton).searches == s.searches + (if Blank(s.box.text) then [] else [s.box.text])
  {
    TrimEmptyIffBlank(s.box.text);
  }

  /** Focusing the input shows the dropdown whenever there are suggestions. */
  lemma FocusShowsSuggestions(s: Session)
    ensures Apply(s, Focusing).box.focused
    ensures s.box.suggestions != [] ==> DropdownVisible(Apply(s, Focusing).box)
    ensures Apply(s, Focusing).searches == s.searches && Apply(s, Focusing).pending == s.pending
  {
  }

  /** A keystroke sets the text and files a request exactly when the value is long enough. */
  lemma TypingRequests(s: Session, value: string)
    ensures Apply(s, Typing(value)).box.text == value
    ensures |value| >= MinQueryLength ==> Apply(s, Typing(value)).pending == s.pending + [value]
    ensures |value| < MinQueryLength ==> Apply(s, Typing(value)).pending == s.pending
  {
  }
}

=== FILE: songs.dfy ===
/** The song record the front end receives from the recommendation service. */
module Songs {
  import opened Wrappers

  /**
   * Optional fields may be absent; `popularity` and `durationMs` are the service's integers.
   * `title` and `artist` are always strings in this model.
   */
  datatype Song = Song(
    title: string,
    artist: string,
    album: Option<string>,
    image: Option<string>,
    popularity: int,
    durationMs: int,
    spotifyUrl: Option<string>,
    previewUrl: Option<string>,
    youtubeVideoId: Option<string>,
    trackId: Option<string>)

  /** JavaScript truthiness of an optional string: present and non-empty. */
  predicate Truthy(s: Option<string>) {
    s.Some? && s.value != ""
  }
}

=== FILE: wrappers.dfy ===
/** Optional values: JavaScript's `null`/`undefined` and Python's `None` both become `None`. */
module Wrappers {

  datatype Option<+T> = None | Some(value: T) {

    /** The wrapped value, or `default` when absent (the `x || default` idiom for objects). */
    function GetOr(default: T): T {
      match this
      case Some(v) => v
      case None => default
    }
  }
}
